=== FILE: README.md ===
# Lead upload reconciliation

This project models the lead-ingestion core of a campaign back end. A user
uploads spreadsheets of leads for a campaign. For every decoded row, the
per-file pipeline `saveLeadsFromExcel` does four things:

1. It builds a uniqueness filter from the campaign's `uniqueCols` plus the
   job's `campaignId`.
2. It builds an update from the row's fields, stamped with the job's
   `campaign`, `organization`, `uploader` and `campaignId`.
3. It upserts the row into the lead collection (`findOneAndUpdate` with
   `upsert: true, new: true`).
4. It files the reply's snapshot into the `updated`, `created` or `error`
   bucket.

It then builds a result workbook with the sheets "tickets updated" and then
"tickets created". It uploads it as `result-<file key>`, writes an audit
entry pointing at the uploaded location, and pushes a notification to the
uploader.

The batch entry points run this pipeline over the job's files. They are the
queue processor's `uploadLeads` and the compiled service's
`uploadMultipleLeadFiles`. Before any lead write, both apply a guard: a
`null` campaign-config lookup throws, and an empty list does not. Both also
write a first `campaignConfig` audit entry for the first file.

The two copies differ in four ways:
- The service sends a processing mail right after the first audit entry.
- The service fires the push notification and only logs a failure. The
  processor awaits the notification, so a rejected notification fails that
  file.
- The service returns `{ files, result }` to its caller, with `result`
  undefined because `parseLeadFiles` returns nothing
  (dist/lead/lead.service.js:53-54). The processor only logs that pair and
  resolves with no value
  (src/bull-queue/processors/lead-upload.processor.ts:83-96).
- The processor's per-file pipeline first awaits a `leadColumns` config
  query whose result it never uses
  (src/bull-queue/processors/lead-upload.processor.ts:141-147). It is left
  out below.

Modules:
- `LeadDoc`: field values, open lead documents, equality filters.
- `LeadStore`: the collection as a sequence of documents and the abstract
  upsert.
- `Reconcile`: filter, update, the loop as a fold and as a method, the
  buckets, idempotence.
- `ResultBook`: the workbook as an ordered list of named sheets.
- `Ingest`: the shared per-file pipeline and batch flow over an event trace.
  `Variant` tells the two copies apart.
- `Processor` and `Service`: the two entry points and how they relate.

The upsert abstraction:
- A hit sets every key of the update on the first matching document.
- A miss appends the filter's equality fields overridden by the update.
- A field a document lacks reads as `undefined`. A filter value `undefined`
  therefore matches a document that lacks that field.

Collaborators are represented by the answers they give, not by code. These
are the decoded rows, the row whose upsert the store rejects, the upload
location, and which of the upload, audit and notify calls reject. Every
call the flow issues is appended to a trace.

Re-uploading the same rows classifies every one as updated, but only under
a hypothesis, `Reconcile.KeyConsistent`. It says that no unique column is
one of `campaign`, `organization` or `uploader` with a row value that
differs from the job's. Otherwise the filter looks for the row's own value,
while the update overwrites it with the job's. The written document then
never matches its own filter again, and every re-upload creates a new
record (`Reconcile.ConflictingKeyCreatesAgain`). For `organization`, which
the lead schema types as an ObjectId (src/lead/schema/lead.schema.ts:31),
this applies only to row values shaped like an ObjectId, or to rows that
lack the column: an absent value is not cast, and the filter looks for a
missing field. Any other value fails the cast, so the upsert rejects before
anything is written.

Neither copy catches an upsert failure inside the loop
(src/bull-queue/processors/lead-upload.processor.ts:176-190,
dist/lead/lead.service.js:78-81). A rejected upsert rejects the whole file
pipeline, keeping the rows written before it, and issues no upload, audit
entry or notification. With `upsert: true`, every reply is either
`updatedExisting` or `upserted`, so the `error` bucket stays empty in this
store model. Its branch is modelled all the same.

## Model

| member | source | states |
|---|---|---|
| Reconcile.FilterCols | src/bull-queue/processors/lead-upload.processor.ts:165-168 | the column part of the filter has exactly one key per unique column, holding the lead's value there (`undefined` when the lead lacks the column) |
| Reconcile.FilterShape | src/bull-queue/processors/lead-upload.processor.ts:165-174 | `BuildFilter` makes a filter whose keys are exactly `uniqueCols` plus `campaignId`; each unique column other than `campaignId` holds the lead's value; `campaignId` always holds the job's id, even when it is also a unique column |
| Reconcile.UpdateShape | src/bull-queue/processors/lead-upload.processor.ts:180-186 | `BuildUpdate` makes an update whose keys are the lead's keys plus the four metadata keys; every other lead key keeps the lead's value, and `campaign`, `organization`, `uploader`, `campaignId` take the job's values whatever the lead says |
| Reconcile.FilterAgreesWithUpdate | src/bull-queue/processors/lead-upload.processor.ts:165-186 | filter and update give the same value to every shared key if and only if the lead is key-consistent with the job |
| LeadStore.FirstMatch | src/bull-queue/processors/lead-upload.processor.ts:176-178 | the document picked is the first in store order that satisfies the filter, and there is none exactly when no document satisfies it |
| LeadStore.Upsert | src/bull-queue/processors/lead-upload.processor.ts:176-190 | a hit reports `updatedExisting` and a miss reports `upserted`, never both; the store grows by one document exactly on a miss; the reply value is a document the store now holds, with every key of the update set |
| LeadStore.UpsertFrame | src/bull-queue/processors/lead-upload.processor.ts:176-190 | keys the update does not set come from the matched document, or from the filter on a miss; every other document is untouched |
| LeadStore.UpsertSnapshotMatches | src/bull-queue/processors/lead-upload.processor.ts:176-190 | the returned snapshot satisfies the filter if and only if the update agrees with the filter |
| LeadStore.UpsertKeepsFound | src/bull-queue/processors/lead-upload.processor.ts:176-190 | a record findable under a filter of the same shape stays findable after an upsert whose update agrees with its filter |
| Reconcile.Run | src/bull-queue/processors/lead-upload.processor.ts:150-198 | the loop produces one reply per lead and never shrinks the store |
| Reconcile.SnapshotMatchesFilter | src/bull-queue/processors/lead-upload.processor.ts:165-190 | the snapshot written for a lead satisfies the filter built for it if and only if the lead is key-consistent with the job |
| Reconcile.Partition | src/bull-queue/processors/lead-upload.processor.ts:191-197 | the three bucket sizes add up to the number of replies |
| Reconcile.PartitionSnoc | src/bull-queue/processors/lead-upload.processor.ts:191-197 | filing one more reply (`File`, `KindOf`) appends its snapshot to the updated bucket when `updatedExisting` is set, otherwise to the created bucket when `upserted` is set, otherwise to the error bucket, and leaves the other two buckets unchanged |
| Reconcile.SelectSnoc | src/bull-queue/processors/lead-upload.processor.ts:191-197 | one more reply adds its value to the end of its own kind's selection and leaves the other selections unchanged |
| Reconcile.PartitionIsSelection | src/bull-queue/processors/lead-upload.processor.ts:150-197 | each bucket holds exactly the snapshots of the replies of its kind, in processing order, with `updatedExisting` checked before `upserted` |
| Reconcile.SelectUniform | src/bull-queue/processors/lead-upload.processor.ts:191-197 | when every reply has one kind, its bucket holds them all and the other buckets are empty |
| Reconcile.RunGrowsByCreated | src/bull-queue/processors/lead-upload.processor.ts:176-197 | the store grows by exactly the number of leads classified created |
| Reconcile.RunKeepsFound | src/bull-queue/processors/lead-upload.processor.ts:176-190 | a record findable under a campaign-shaped filter before the loop is still findable after it, when every lead is key-consistent |
| Reconcile.RunFindsEveryLead | src/bull-queue/processors/lead-upload.processor.ts:165-190 | when every lead is key-consistent, after the loop the store holds a document matching every lead's filter |
| Reconcile.StepKeepsAllFound | src/bull-queue/processors/lead-upload.processor.ts:176-190 | one key-consistent upsert keeps every other lead's filter findable |
| Reconcile.RunOverFoundUpdatesAll | src/bull-queue/processors/lead-upload.processor.ts:176-197 | over a store where every lead's filter already finds a record, every lead is classified updated and the store keeps its size |
| Reconcile.ReuploadUpdatesEveryLead | src/bull-queue/processors/lead-upload.processor.ts:150-197 | running the same key-consistent leads a second time leaves the store's size unchanged, creates nothing, errors nothing, and updates every lead |
| Reconcile.ConflictingKeyCreatesAgain | src/bull-queue/processors/lead-upload.processor.ts:165-197 | when no record matched the lead's filter before, a lead whose unique `campaign` or `uploader` value, or ObjectId-shaped or absent `organization` value, differs from the job's is created on the first run and created again on a re-run, growing the store by two |
| Reconcile.AdjacentSameKeyRows | src/bull-queue/processors/lead-upload.processor.ts:165-197 | two consecutive rows with the same unique-column values, the first key-consistent with the job, reconcile to one record: the first lands at the matched record's index or is appended, the second upsert finds that same index first and is an update, the record there becomes the first snapshot merged with the later row's update, the pair adds at most one document, and the record carries the later row's fields |
| Reconcile.SameKeyRowsShareOneRecord | src/bull-queue/processors/lead-upload.processor.ts:150-197 | any two rows `i < j` of one file with the same unique-column values, all rows key-consistent, reconcile to one record: row `i` leaves its snapshot at the write index of its filter; the rows in between leave that record the first one the filter finds; row `j` is an update of exactly that record, which becomes its old contents merged with row `j`'s update and carries row `j`'s own fields; it is still the filter's first match at the end of the file |
| Reconcile.RowWritesAt | src/bull-queue/processors/lead-upload.processor.ts:176-190 | a key-consistent row's reply is the record at the write index of its filter, which the filter then finds first |
| Reconcile.RowUpdatesAt | src/bull-queue/processors/lead-upload.processor.ts:176-197 | a row whose filter first finds the record at an index is classified updated, and its reply is that record merged with its update, written back at the same index and still found first to the end of the loop |
| LeadStore.UpsertKeepsFirstMatch | src/bull-queue/processors/lead-upload.processor.ts:176-190 | an upsert under a filter with the same keys, whose update agrees with its filter, does not move the first document another filter finds |
| Reconcile.RunKeepsFirstMatch | src/bull-queue/processors/lead-upload.processor.ts:150-190 | through a loop over key-consistent leads, the first document a filter of the campaign's shape finds stays at the same index |
| Reconcile.RunAppend | src/bull-queue/processors/lead-upload.processor.ts:150-198 | the loop over two runs of leads is the second run against the store the first one left, with the replies concatenated in order |
| Reconcile.ReplyAt | src/bull-queue/processors/lead-upload.processor.ts:150-198 | reply `n` is lead `n`'s upsert against the store the earlier leads left, and the rest of the loop continues from the store that upsert left |
| LeadStore.UpsertTwiceHitsOneRecord | src/bull-queue/processors/lead-upload.processor.ts:176-190 | a second upsert under the same filter, after one whose update agrees with it, hits the record the first one wrote, at the same index, and sets the second update's keys on it |
| Reconcile.RunSnoc | src/bull-queue/processors/lead-upload.processor.ts:150-198 | one more lead is one more upsert against the store the earlier ones left, with its reply appended last |
| Reconcile.LoopStep | src/bull-queue/processors/lead-upload.processor.ts:150-198 | one iteration of the loop extends the fold by one lead, files the reply into its bucket, and keeps the store's growth equal to the created bucket's size |
| Ingest.FoundAfterWritten | src/bull-queue/processors/lead-upload.processor.ts:165-198 | when every row is key-consistent, the loop over the first rows of a file leaves a store in which each of those rows' filters finds a record |
| Reconcile.SaveLoop | src/bull-queue/processors/lead-upload.processor.ts:137-198 | the imperative loop leaves the store and the three buckets that the fold and the partition define; the bucket sizes add up to the leads, and the store grows by the created bucket's size |
| ResultBook.SelectFrom | src/bull-queue/processors/lead-upload.processor.ts:191-197 | every snapshot in a selection comes from a reply of that kind |
| ResultBook.WorkbookFromReplies | src/bull-queue/processors/lead-upload.processor.ts:201-206 | `BuildWorkbook` over the buckets has exactly the sheets "tickets updated" and "tickets created", in that order, holding the updated and created snapshots in processing order; its rows add up to the leads minus the errors, and none comes from an errored reply |
| Ingest.PublishResult | src/bull-queue/processors/lead-upload.processor.ts:200-236 | the calls are a prefix of upload, audit entry, notification, each issued only after the previous one succeeded; the upload is named `result-<key>`; the audit entry (`ResultAudit`) is a `lead` entry for the job's campaign, pointing at the returned location; the notification names that location; each rejection fails the file at its stage, and the file settles with the location exactly when no awaited call rejects |
| Ingest.SaveLeadsFromExcel | src/bull-queue/processors/lead-upload.processor.ts:126-237 | the store grows by exactly the number of rows created among the rows written; with key-consistent rows, every written row's filter finds a record; the file fails at a row exactly when some row's upsert rejects, and then issues no call; otherwise the uploaded workbook holds the updated and then the created snapshots of the whole loop, the audit entry and notification point at the upload's location, each collaborator rejection fails the file at its stage, and the file is done with that location exactly when no awaited call rejects |
| Ingest.ProcessFile | src/bull-queue/processors/lead-upload.processor.ts:110-123 | a file whose decoding rejects writes nothing and issues no call; a file settles as done exactly when every stage succeeds; a file never issues mail, never shrinks the store, and writes only `lead` audit entries for the job's campaign |
| Ingest.RunFiles | src/bull-queue/processors/lead-upload.processor.ts:99-124 | one outcome per file, in list order; a file is done exactly when all its stages succeed; only the awaiting copy fails on a notification; the store only grows; no mail; every audit entry is a `lead` entry for the job's campaign |
| Ingest.RunJob | src/bull-queue/processors/lead-upload.processor.ts:58-97 | the job throws exactly on a `null` config, an empty file list or a rejected first audit entry, and then writes no lead; the first call is the `campaignConfig` audit entry for the first file (`ConfigAudit`); later audit entries are `lead` entries; a resolved job has one outcome per file |
| Processor.UploadLeads | src/bull-queue/processors/lead-upload.processor.ts:46-97 | the queue handler sends no mail, and a file whose notification rejects never settles as done |
| Processor.NotificationFailureFailsFile | src/bull-queue/processors/lead-upload.processor.ts:227-236 | a rejected notification fails the file after the upload, the audit entry and the notification were all issued |
| Service.UploadMultipleLeadFiles | dist/lead/lead.service.js:38-66 | the service replies exactly when the job resolves, echoing the job's files unchanged with an undefined result; its second call is the processing mail (`Prelude`); no file fails on a notification |
| Service.FileAgrees | dist/lead/lead.service.js:67-125 | for one file, both copies issue the same writes and calls, and their outcomes differ only where the processor reports a rejected notification and the service reports the result location |
| Service.FilesAgree | dist/lead/lead.service.js:56-125 | over a file list, both copies leave the same store and trace, and the per-file outcomes differ only by rejected notifications |
| Service.SameBatchAsProcessor | dist/lead/lead.service.js:38-125 | both copies reach the same job outcome and store, with per-file outcomes equal up to rejected notifications; their traces are equal, except that the service inserts its mail right after the first audit entry |
| Service.NotificationFailureIgnoredFiles | dist/lead/lead.service.js:112-124 | over a file list, the service's writes, calls and outcomes are the same whether or not the push service rejects |
| Service.NotificationFailureIgnored | dist/lead/lead.service.js:112-125 | the service's whole run is the same whether or not the push service rejects the notifications |

## Left out

- `parseExcel` and the header-to-field mapping are not part of this model. The decoded rows, or a decoding rejection, are an input of each file.
- xlsx serialisation (`json_to_sheet`, `write`) is not modelled: the workbook is an ordered list of named sheets of snapshots.
- The object store upload, the push service, the audit collection and the service's mail are modelled only as trace events with their arguments. Their answers are inputs: the location, and whether the call rejects. The mail's fixed recipient address and body text, and the notification's icon, tag and badge, are not modelled; the recipient is a placeholder constant.
- The campaign `findOne` and the config `find` are inputs too, and their rejections are not modelled.
- `files.forEach(async …)` starts every file's pipeline without awaiting it, and the pipelines interleave at every `await`. The model runs them one after another in list order, which is one schedule among many. The job resolving before the files finish is modelled by the job's outcome not depending on theirs. A file pipeline's rejection is an unhandled promise rejection in the source; the model reports it only as that file's outcome.
- Bull's `@Process`, `@OnQueueActive` and `@OnQueueStalled` hooks, and all logging, are left out.
- Mongoose internals are abstracted: atomicity, timestamps, `_id`, and `null` versus missing-field matching.
- Values are not cast to the lead schema's path types: `campaignId` and `organization` are ObjectIds, `amount` and `pincode` are numbers, and `followUp` is a date (src/lead/schema/lead.schema.ts:18-31). The store compares values as given. So under a unique `pincode`, the string "12345" and the number 12345 are two keys in the model, but one key in the source. A value that fails its cast makes the source's upsert reject. That is one of the causes covered by the input naming the row whose upsert rejects.
- The processor's `leadColumns` query (src/bull-queue/processors/lead-upload.processor.ts:141-147) is left out because its result is unused. Its possible rejection is left out too, and so is the commented-out contact grouping.
- The lead schema is only a declaration, with `strict: false`. It is the reason leads are open string-keyed maps.
- A campaign that is not found (`uniqueAttr` null) crashes at `uniqueCols` in the source. The model takes the unique columns as given.
- Numeric lead values are integers, not IEEE doubles.
- Reconcile.ReuploadUpdatesEveryLead: holds only for key-consistent leads, because the source's override of `campaign`, `organization` and `uploader` defeats a unique column of that name (`Reconcile.ConflictingKeyCreatesAgain`).

=== FILE: ingest.dfy ===
/** The ingestion flow both copies of the lead upload share: the per-file
    `saveLeadsFromExcel` (reconcile, lay out the result workbook, upload it,
    write the audit entry, notify the uploader) and the batch entry point
    (config guard, first audit entry, per-file runs). Collaborators are
    represented by the answers they give: the decoded leads, the store row
    that rejects, the upload location and which calls reject. Effects are an
    append-only trace of the calls issued, in order. */
module Ingest {
  import opened LeadDoc
  import opened LeadStore
  import opened Reconcile
  import opened ResultBook

  /** An `AdminAction` audit entry. */
  datatype AdminAction = AdminAction(userid: string, organization: string, actionType: string,
                                     filePath: string, savedOn: string, campaign: string, fileType: string)

  /** The push notification's title and body. */
  datatype Notice = Notice(title: string, body: string)

  /** A call to an external collaborator, recorded when it is issued. */
  datatype Event =
    | AuditCall(entry: AdminAction)
    | MailCall(to: string, subject: string)
    | UploadCall(fileName: string, book: Workbook)
    | NotifyCall(token: string, notice: Notice)

  datatype Tag = AuditTag | MailTag | UploadTag | NotifyTag

  function TagOf(e: Event): Tag
  {
    match e
    case AuditCall(_) => AuditTag
    case MailCall(_, _) => MailTag
    case UploadCall(_, _) => UploadTag
    case NotifyCall(_, _) => NotifyTag
  }

  function Tags(t: seq<Event>): seq<Tag>
  {
    seq(|t|, i requires 0 <= i < |t| => TagOf(t[i]))
  }

  /** How the collaborators answer for one file: the index of the lead whose
      upsert the store rejects (if any), the `Location` the object store
      returns for the result, and whether the upload, the audit write or the
      push notification rejects. */
  datatype FileEnv = FileEnv(rejectedRow: Option<nat>, resultLocation: string,
                             uploadRejects: bool, auditRejects: bool, notifyRejects: bool)

  /** An uploaded file reference (`Location`, `Key`) with what `parseExcel`
      yields for it (`None` when it rejects) and its collaborators' answers. */
  datatype UploadedFile = UploadedFile(location: string, key: string, decoded: Option<seq<Doc>>, env: FileEnv)

  /** The job fields every per-file pipeline receives. */
  datatype Context = Context(campaignName: string, uploader: string, organization: string,
                             userId: string, pushtoken: string, campaignId: string)

  /** The queue job payload: the uploaded files and their context. */
  datatype Job = Job(files: seq<UploadedFile>, ctx: Context)

  function MetaOf(c: Context): Meta
  {
    Meta(c.campaignName, c.organization, c.uploader, c.campaignId)
  }

  /** The two copies of the flow: the queue processor awaits the push
      notification, the compiled service fires it and only logs a failure. */
  datatype Variant = QueueProcessor | CompiledService

  predicate AwaitsNotification(v: Variant)
  {
    v == QueueProcessor
  }

  datatype Stage = DecodeRejected | RowRejected(row: nat) | UploadRejected | AuditRejected | NotifyRejected

  /** How one file's pipeline settles: with the result's location, or rejected at a stage. */
  datatype FileStatus = Done(location: string) | Failed(stage: Stage)

  datatype FileRun = FileRun(store: Store, trace: seq<Event>, status: FileStatus)

  const ResultPrefix: string := "result-"

  function ResultName(key: string): string
  {
    ResultPrefix + key
  }

  /** The audit entry written after the result upload. */
  function ResultAudit(c: Context, location: string): AdminAction
  {
    AdminAction(c.userId, c.organization, "lead", location, "s3", c.campaignId, "lead")
  }

  function DoneNotice(location: string): Notice
  {
    Notice("File Upload Complete", "please visit " + location + " for the result")
  }

  /** The number of leads whose upsert goes through: all of them, or those
      before the one the store rejects. */
  function RowsWritten(leads: seq<Doc>, env: FileEnv): nat
  {
    if env.rejectedRow.Some? && env.rejectedRow.value < |leads| then env.rejectedRow.value else |leads|
  }

  datatype Published = Published(trace: seq<Event>, status: FileStatus)

  /** The tail of a file's pipeline once every lead is reconciled: upload the
      workbook named `result-<key>`, write an audit entry pointing at the
      returned location, notify the uploader, each call only after the
      previous one succeeded. The processor reports a rejected notification;
      the service does not wait for it. */
  function PublishResult(v: Variant, b: Buckets, key: string, env: FileEnv, c: Context): (p: Published)
    ensures Tags(p.trace) <= [UploadTag, AuditTag, NotifyTag]
    ensures forall i :: 0 <= i < |p.trace| && p.trace[i].UploadCall? ==>
              p.trace[i] == UploadCall(ResultName(key), BuildWorkbook(b))
    ensures forall i :: 0 <= i < |p.trace| && p.trace[i].AuditCall? ==> p.trace[i].entry == ResultAudit(c, env.resultLocation)
    ensures forall i :: 0 <= i < |p.trace| && p.trace[i].NotifyCall? ==>
              p.trace[i] == NotifyCall(c.pushtoken, DoneNotice(env.resultLocation))
    ensures p.status == Failed(UploadRejected) <==> env.uploadRejects
    ensures p.status == Failed(UploadRejected) ==> |p.trace| == 1
    ensures p.status == Failed(AuditRejected) <==> !env.uploadRejects && env.auditRejects
    ensures p.status == Failed(AuditRejected) ==> |p.trace| == 2
    ensures p.status == Failed(NotifyRejected) <==>
              !env.uploadRejects && !env.auditRejects && env.notifyRejects && AwaitsNotification(v)
    ensures p.status == Failed(NotifyRejected) ==> |p.trace| == 3
    ensures p.status.Done? <==> !env.uploadRejects && !env.auditRejects && !(env.notifyRejects && AwaitsNotification(v))
    ensures p.status.Done? ==> p.status.location == env.resultLocation && |p.trace| == 3
  {
    var upload := UploadCall(ResultName(key), BuildWorkbook(b));
    var audit := AuditCall(ResultAudit(c, env.resultLocation));
    var notify := NotifyCall(c.pushtoken, DoneNotice(env.resultLocation));
    if env.uploadRejects then
      Published([upload], Failed(UploadRejected))
    else if env.auditRejects then
      Published([upload, audit], Failed(AuditRejected))
    else if env.notifyRejects && AwaitsNotification(v) then
      Published([upload, audit, notify], Failed(NotifyRejected))
    else
      Published([upload, audit, notify], Done(env.resultLocation))
  }

  /** The result workbook of a file whose every row went through: the updated
      and the created snapshots, each in processing order. */
  function ResultBookOf(s: Store, cols: seq<string>, leads: seq<Doc>, c: Context): Workbook
  {
    var rs := Run(s, cols, leads, MetaOf(c)).replies;
    [Sheet(UpdatedSheet, Select(rs, Updated)), Sheet(CreatedSheet, Select(rs, Created))]
  }

  /** One file's pipeline. A rejected upsert ends it with the earlier rows
      written and no call issued, so no result is published; otherwise the
      result built from every lead's reply is published. */
  function SaveLeadsFromExcel(v: Variant, s: Store, cols: seq<string>, leads: seq<Doc>, key: string,
                              env: FileEnv, c: Context): (r: FileRun)
    // the store grows by the rows created among those written
    ensures |r.store| == |s| + |Select(Run(s, cols, leads[..RowsWritten(leads, env)], MetaOf(c)).replies, Created)|
    // with key-consistent leads, every written row's filter finds a record afterwards
    ensures (forall l :: l in leads ==> KeyConsistent(cols, l, MetaOf(c))) ==>
              forall i :: 0 <= i < RowsWritten(leads, env) ==> Found(r.store, BuildFilter(cols, leads[i], c.campaignId))
    // a rejected upsert fails the file at that row before any call
    ensures r.status == Failed(RowRejected(RowsWritten(leads, env))) <==> RowsWritten(leads, env) < |leads|
    ensures r.trace == [] <==> RowsWritten(leads, env) < |leads|
    // the calls: upload of the workbook of every row, then the audit entry, then the notification,
    // each issued only after the previous one succeeded
    ensures Tags(r.trace) <= [UploadTag, AuditTag, NotifyTag]
    ensures r.trace != [] ==> r.trace[0] == UploadCall(ResultName(key), ResultBookOf(s, cols, leads, c))
    ensures r.trace != [] ==> |r.trace| == (if env.uploadRejects then 1 else if env.auditRejects then 2 else 3)
    ensures forall i :: 0 <= i < |r.trace| && r.trace[i].AuditCall? ==> r.trace[i].entry == ResultAudit(c, env.resultLocation)
    ensures forall i :: 0 <= i < |r.trace| && r.trace[i].NotifyCall? ==>
              r.trace[i] == NotifyCall(c.pushtoken, DoneNotice(env.resultLocation))
    // the outcome
    ensures r.status == Failed(UploadRejected) <==> RowsWritten(leads, env) == |leads| && env.uploadRejects
    ensures r.status == Failed(AuditRejected) <==>
              RowsWritten(leads, env) == |leads| && !env.uploadRejects && env.auditRejects
    ensures r.status == Failed(NotifyRejected) <==>
              RowsWritten(leads, env) == |leads| && !env.uploadRejects && !env.auditRejects
              && env.notifyRejects && AwaitsNotification(v)
    ensures r.status.Done? <==>
              RowsWritten(leads, env) == |leads| && !env.uploadRejects && !env.auditRejects
              && !(env.notifyRejects && AwaitsNotification(v))
    ensures r.status.Done? ==> r.status.location == env.resultLocation
  {
    var m := MetaOf(c);
    var n := RowsWritten(leads, env);
    var written := Run(s, cols, leads[..n], m);
    RunGrowsByCreated(s, cols, leads[..n], m);
    FoundAfterWritten(s, cols, leads, n, m);
    if n < |leads| then
      FileRun(written.store, [], Failed(RowRejected(n)))
    else
      assert leads[..n] == leads;
      PartitionIsSelection(written.replies);
      var p := PublishResult(v, Partition(written.replies), key, env, c);
      assert p.trace != [] ==> p.trace[0].UploadCall? by {
        if p.trace != [] {
          assert Tags(p.trace)[0] == TagOf(p.trace[0]);
        }
      }
      FileRun(written.store, p.trace, p.status)
  }

  /** With key-consistent leads, the filter of every row among the first `n`
      finds a record once those rows are written. */
  lemma FoundAfterWritten(s: Store, cols: seq<string>, leads: seq<Doc>, n: nat, m: Meta)
    requires n <= |leads|
    ensures (forall l :: l in leads ==> KeyConsistent(cols, l, m)) ==>
              forall i :: 0 <= i < n ==> Found(Run(s, cols, leads[..n], m).store, BuildFilter(cols, leads[i], m.campaignId))
  {
    if forall l :: l in leads ==> KeyConsistent(cols, l, m) {
      RunFindsEveryLead(s, cols, leads[..n], m);
      forall i | 0 <= i < n
        ensures Found(Run(s, cols, leads[..n], m).store, BuildFilter(cols, leads[i], m.campaignId))
      {
        assert leads[..n][i] == leads[i];
      }
    }
  }

  /** A file's pipeline settles with its result location exactly when it
      decodes, every upsert goes through, the upload and the audit write
      succeed, and the notification succeeds or is not waited for. */
  predicate FileSucceeds(v: Variant, f: UploadedFile)
  {
    && f.decoded.Some?
    && RowsWritten(f.decoded.value, f.env) == |f.decoded.value|
    && !f.env.uploadRejects
    && !f.env.auditRejects
    && !(f.env.notifyRejects && AwaitsNotification(v))
  }

  /** One file of the batch: a file whose decoding rejects stops before any
      write or call; otherwise its pipeline runs. Either way it issues no
      processing mail, grows the store only, and any audit entry it writes is
      a `lead` entry for the job's campaign. */
  function ProcessFile(v: Variant, s: Store, cols: seq<string>, f: UploadedFile, c: Context): (r: FileRun)
    ensures r.status == Failed(DecodeRejected) <==> f.decoded.None?
    ensures r.status.Done? <==> FileSucceeds(v, f)
    ensures r.status == Failed(NotifyRejected) ==> AwaitsNotification(v)
    ensures f.decoded.None? ==> r.store == s && r.trace == []
    ensures |r.store| >= |s|
    ensures forall i :: 0 <= i < |r.trace| ==> TagOf(r.trace[i]) != MailTag
    ensures forall i :: 0 <= i < |r.trace| && r.trace[i].AuditCall? ==>
              r.trace[i].entry.fileType == "lead" && r.trace[i].entry.campaign == c.campaignId
  {
    match f.decoded
    case None => FileRun(s, [], Failed(DecodeRejected))
    case Some(leads) =>
      var r := SaveLeadsFromExcel(v, s, cols, leads, f.key, f.env, c);
      assert forall i :: 0 <= i < |r.trace| ==> TagOf(r.trace[i]) != MailTag by {
        forall i | 0 <= i < |r.trace|
          ensures TagOf(r.trace[i]) != MailTag
        {
          assert Tags(r.trace)[i] == TagOf(r.trace[i]);
        }
      }
      r
  }

  datatype FilesRun = FilesRun(store: Store, trace: seq<Event>, statuses: seq<FileStatus>)

  /** The per-file pipelines of a batch, run one after another in list order. */
  function RunFiles(v: Variant, s: Store, cols: seq<string>, files: seq<UploadedFile>, c: Context): (r: FilesRun)
    ensures |r.statuses| == |files|
    ensures forall i :: 0 <= i < |files| ==> (r.statuses[i] == Failed(DecodeRejected) <==> files[i].decoded.None?)
    ensures forall i :: 0 <= i < |files| ==> (r.statuses[i].Done? <==> FileSucceeds(v, files[i]))
    ensures forall i :: 0 <= i < |files| && r.statuses[i] == Failed(NotifyRejected) ==> AwaitsNotification(v)
    ensures |r.store| >= |s|
    ensures forall i :: 0 <= i < |r.trace| ==> TagOf(r.trace[i]) != MailTag
    ensures forall i :: 0 <= i < |r.trace| && r.trace[i].AuditCall? ==>
              r.trace[i].entry.fileType == "lead" && r.trace[i].entry.campaign == c.campaignId
    decreases |files|
  {
    if files == [] then FilesRun(s, [], [])
    else
      var head := ProcessFile(v, s, cols, files[0], c);
      var rest := RunFiles(v, head.store, cols, files[1..], c);
      FilesRun(rest.store, head.trace + rest.trace, [head.status] + rest.statuses)
  }

  /** What the campaign-config lookup resolves to. Only `null` is falsy: an
      empty list passes the guard. */
  datatype FieldPair = FieldPair(readableField: string, internalField: string)
  datatype ConfigLookup = NullConfig | ConfigRows(pairs: seq<FieldPair>)

  /** The batch-level collaborators' answers: the campaign's `uniqueCols`, the
      config lookup, and whether the first audit write rejects. */
  datatype Lookups = Lookups(uniqueCols: seq<string>, config: ConfigLookup, configAuditRejects: bool)

  /** Why a job throws: the config guard, `files[0].Location` on an empty
      file list, or a rejected first audit write. */
  datatype JobError = CampaignNotConfigured | NoFirstFile | ConfigAuditRejected

  datatype JobStatus = Resolved | Threw(error: JobError)

  datatype JobRun = JobRun(status: JobStatus, store: Store, trace: seq<Event>, files: seq<FileStatus>)

  /** The audit entry for the raw upload, pointing at the first file. */
  function ConfigAudit(j: Job): AdminAction
    requires |j.files| > 0
  {
    AdminAction(j.ctx.userId, j.ctx.organization, "lead", j.files[0].location, "s3", j.ctx.campaignId, "campaignConfig")
  }

  /** The fixed recipient of the processing mail, left abstract. */
  const UploadMailTo: string := "processing-mail-recipient"
  const UploadMailSubject: string := "Your file has been uploaded for processing ..."

  /** Calls `parseLeadFiles` issues before the files: the service sends a
      processing mail without waiting for it. */
  function Prelude(v: Variant): seq<Event>
  {
    if v == CompiledService then [MailCall(UploadMailTo, UploadMailSubject)] else []
  }

  /** The batch entry point. The guard and the first audit come before any
      lead write; once past them the job resolves whatever the files do,
      since the per-file pipelines are not awaited. */
  function RunJob(v: Variant, s: Store, lk: Lookups, j: Job): (r: JobRun)
    ensures r.status.Threw? <==> lk.config.NullConfig? || |j.files| == 0 || lk.configAuditRejects
    ensures r.status == Threw(CampaignNotConfigured) <==> lk.config.NullConfig?
    ensures r.status.Threw? ==> r.store == s && r.files == [] && |r.trace| <= 1
    ensures lk.config.NullConfig? || |j.files| == 0 ==> r.trace == []
    ensures r.trace != [] ==> |j.files| > 0 && r.trace[0] == AuditCall(ConfigAudit(j))
    ensures forall i :: 0 < i < |r.trace| && r.trace[i].AuditCall? ==> r.trace[i].entry.fileType == "lead"
    ensures r.status.Resolved? ==>
              |r.files| == |j.files| && |r.trace| >= 1 + |Prelude(v)| && r.trace[1..1 + |Prelude(v)|] == Prelude(v)
    ensures r.status.Resolved? ==> forall i :: 0 <= i < |j.files| ==> (r.files[i].Done? <==> FileSucceeds(v, j.files[i]))
    ensures r.status.Resolved? ==>
              forall i :: 0 <= i < |j.files| && r.files[i] == Failed(NotifyRejected) ==> AwaitsNotification(v)
  {
    if lk.config.NullConfig? then JobRun(Threw(CampaignNotConfigured), s, [], [])
    else if |j.files| == 0 then JobRun(Threw(NoFirstFile), s, [], [])
    else
      var audit := AuditCall(ConfigAudit(j));
      if lk.configAuditRejects then JobRun(Threw(ConfigAuditRejected), s, [audit], [])
      else
        var fr := RunFiles(v, s, lk.uniqueCols, j.files, j.ctx);
        var trace := [audit] + Prelude(v) + fr.trace;
        assert forall i :: 0 < i < |trace| && trace[i].AuditCall? ==> trace[i].entry.fileType == "lead" by {
          forall i | 0 < i < |trace| && trace[i].AuditCall?
            ensures trace[i].entry.fileType == "lead"
          {
            assert i >= 1 + |Prelude(v)|;
            assert trace[i] == fr.trace[i - 1 - |Prelude(v)|];
          }
        }
        JobRun(Resolved, fr.store, trace, fr.statuses)
  }
}

=== FILE: lead_doc.dfy ===
/** Lead documents as the record store holds them: open string-keyed records.
    The lead schema is declared with `strict: false`, so any column of the
    uploaded sheet is stored as-is; a document is therefore a plain map. */
module LeadDoc {

  datatype Option<+T> = None | Some(value: T)

  /** A field value. `Undefined` stands for JavaScript's `undefined`, which is
      what reading an absent key of a record yields. */
  datatype Value = Undefined | Bool(b: bool) | Num(n: int) | Str(s: string)

  type Doc = map<string, Value>

  /** Reads a field the way `record[key]` does: an absent key reads as `Undefined`. */
  function Lookup(d: Doc, k: string): Value
  {
    if k in d then d[k] else Undefined
  }

  /** A document satisfies an equality filter when it agrees with every key of
      the filter; a filter value `Undefined` is satisfied by an absent field. */
  predicate Matches(d: Doc, f: Doc)
  {
    forall k :: k in f ==> Lookup(d, k) == f[k]
  }

  /** An update agrees with a filter when they give the same value to every key
      both of them set. */
  predicate Agrees(f: Doc, u: Doc)
  {
    forall k :: k in f && k in u ==> f[k] == u[k]
  }
}

=== FILE: lead_store.dfy ===
/** The lead collection, abstracted to a sequence of documents, and the one
    operation the reconciliation loop issues against it: `findOneAndUpdate`
    with `upsert: true, new: true`. A hit sets every key of the update on the
    first matching document; a miss appends a document built from the filter's
    equality fields overridden by the update. The reply carries the driver's
    `lastErrorObject` flags and the document after the write. */
module LeadStore {
  import opened LeadDoc

  type Store = seq<Doc>

  /** Some document of the store satisfies the filter. */
  predicate Found(s: Store, f: Doc)
  {
    exists i :: 0 <= i < |s| && Matches(s[i], f)
  }

  /** The first document at or after `i` that satisfies the filter. */
  function FirstMatchFrom(s: Store, f: Doc, i: nat): (r: Option<nat>)
    requires i <= |s|
    ensures r.Some? ==> i <= r.value < |s| && Matches(s[r.value], f)
    ensures r.Some? ==> forall j :: i <= j < r.value ==> !Matches(s[j], f)
    ensures r.None? ==> forall j :: i <= j < |s| ==> !Matches(s[j], f)
    decreases |s| - i
  {
    if i == |s| then None
    else if Matches(s[i], f) then Some(i)
    else FirstMatchFrom(s, f, i + 1)
  }

  /** The document `findOneAndUpdate` picks: the first one in store order. */
  function FirstMatch(s: Store, f: Doc): (r: Option<nat>)
    ensures r.Some? ==> r.value < |s| && Matches(s[r.value], f)
    ensures r.Some? ==> forall j :: 0 <= j < r.value ==> !Matches(s[j], f)
    ensures r.None? <==> !Found(s, f)
  {
    FirstMatchFrom(s, f, 0)
  }

  /** `lastErrorObject.updatedExisting`, whether `lastErrorObject.upserted` is
      set, and `value`, the document as it is after the write. */
  datatype Reply = Reply(updatedExisting: bool, upserted: bool, value: Doc)

  datatype Upserted = Upserted(store: Store, reply: Reply)

  function Upsert(s: Store, f: Doc, u: Doc): (r: Upserted)
    // a hit reports updatedExisting, a miss reports upserted, never both
    ensures r.reply.updatedExisting <==> Found(s, f)
    ensures r.reply.upserted <==> !Found(s, f)
    // the store grows by exactly one document on a miss and keeps its size on a hit
    ensures |r.store| == |s| + (if r.reply.upserted then 1 else 0)
    // the reply value is the document the store now holds, with every update key set
    ensures exists i :: 0 <= i < |r.store| && r.reply.value == r.store[i]
    ensures forall k :: k in u ==> k in r.reply.value && r.reply.value[k] == u[k]
  {
    match FirstMatch(s, f)
    case Some(i) =>
      var d := s[i] + u;
      assert s[i := d][i] == d;
      Upserted(s[i := d], Reply(true, false, d))
    case None =>
      var d := f + u;
      assert (s + [d])[|s|] == d;
      Upserted(s + [d], Reply(false, true, d))
  }

  /** What an upsert leaves alone: keys the update does not set come from the
      matched document, or from the filter on a miss, and every document other
      than the matched one is as it was. */
  lemma UpsertFrame(s: Store, f: Doc, u: Doc)
    ensures var r := Upsert(s, f, u);
            && (forall k :: k in r.reply.value && k !in u ==>
                  match FirstMatch(s, f)
                  case Some(i) => k in s[i] && r.reply.value[k] == s[i][k]
                  case None => k in f && r.reply.value[k] == f[k])
            && (forall j :: 0 <= j < |s| && FirstMatch(s, f) != Some(j) ==> r.store[j] == s[j])
  {
  }

  /** After the upsert the reply value satisfies the filter exactly when the
      update agrees with the filter: an update that rewrites a filtered key
      leaves a document the same filter no longer finds. */
  lemma UpsertSnapshotMatches(s: Store, f: Doc, u: Doc)
    ensures Matches(Upsert(s, f, u).reply.value, f) <==> Agrees(f, u)
  {
    var v := Upsert(s, f, u).reply.value;
    UpsertFrame(s, f, u);
    if Agrees(f, u) {
      forall k | k in f
        ensures Lookup(v, k) == f[k]
      {
        if k !in u {
          match FirstMatch(s, f)
          case Some(i) =>
            assert Lookup(s[i], k) == f[k];
          case None =>
        }
      }
    } else {
      var k :| k in f && k in u && f[k] != u[k];
      assert Lookup(v, k) == u[k];
    }
  }

  /** A document the store could find under `g` stays findable after an upsert
      under a filter `f` with the same keys whose update agrees with `f`:
      the matched document only receives values it already had on those keys. */
  lemma UpsertKeepsFound(s: Store, f: Doc, u: Doc, g: Doc)
    requires Found(s, g)
    requires f.Keys == g.Keys
    requires Agrees(f, u)
    ensures Found(Upsert(s, f, u).store, g)
  {
    var r := Upsert(s, f, u);
    UpsertFrame(s, f, u);
    var j :| 0 <= j < |s| && Matches(s[j], g);
    match FirstMatch(s, f)
    case Some(i) =>
      if i == j {
        var d := s[i] + u;
        assert r.store[i] == d;
        forall k | k in g
          ensures Lookup(d, k) == g[k]
        {
          if k in u {
            assert Lookup(s[i], k) == f[k];
          }
        }
        assert Matches(r.store[i], g);
      } else {
        assert Matches(r.store[j], g);
      }
    case None =>
      assert r.store[j] == s[j];
  }

  /** Where an upsert writes: at the first match, or appended at the end. */
  function WriteIndex(s: Store, f: Doc): nat
  {
    if FirstMatch(s, f).Some? then FirstMatch(s, f).value else |s|
  }

  /** Two upserts under one filter whose first update agrees with it hit one
      record: the first writes its snapshot at the write index, the second
      finds exactly that document first and sets its own update over it. */
  lemma UpsertTwiceHitsOneRecord(s: Store, f: Doc, u1: Doc, u2: Doc)
    requires Agrees(f, u1)
    ensures var idx := WriteIndex(s, f);
            var first := Upsert(s, f, u1);
            var second := Upsert(first.store, f, u2);
            && idx < |first.store| && first.store[idx] == first.reply.value
            && FirstMatch(first.store, f) == Some(idx)
            && second.reply.updatedExisting
            && second.store == first.store[idx := first.reply.value + u2]
            && second.reply.value == first.reply.value + u2
  {
    var idx := WriteIndex(s, f);
    var first := Upsert(s, f, u1);
    UpsertFrame(s, f, u1);
    UpsertSnapshotMatches(s, f, u1);
    assert idx < |first.store| && first.store[idx] == first.reply.value;
    forall j | 0 <= j < idx
      ensures !Matches(first.store[j], f)
    {
      assert first.store[j] == s[j];
    }
    var r := FirstMatch(first.store, f);
    assert Found(first.store, f);
    assert r.value <= idx;
    assert r == Some(idx);
  }

  /** A document picked out as the first match: it satisfies the filter and
      none before it does. */
  lemma FirstMatchAt(s: Store, f: Doc, idx: nat)
    requires idx < |s| && Matches(s[idx], f)
    requires forall j :: 0 <= j < idx ==> !Matches(s[j], f)
    ensures FirstMatch(s, f) == Some(idx)
  {
    assert Found(s, f);
    var r := FirstMatch(s, f);
    assert r.value <= idx;
  }

  /** Equality filters with the same keys that one document satisfies are
      the same filter. */
  lemma SameKeysSameFilter(d: Doc, f: Doc, g: Doc)
    requires Matches(d, f) && Matches(d, g)
    requires f.Keys == g.Keys
    ensures f == g
  {
    forall k | k in f
      ensures f[k] == g[k]
    {
      assert Lookup(d, k) == f[k];
    }
  }

  /** An upsert under a filter `g` with the keys of `f`, whose update agrees
      with `g`, leaves the first document `f` finds where it was: the
      document `g` hits either is that one, and then `f` and `g` coincide, or
      it did not satisfy `f` before and cannot satisfy it after. */
  lemma UpsertKeepsFirstMatch(s: Store, g: Doc, u: Doc, f: Doc, idx: nat)
    requires FirstMatch(s, f) == Some(idx)
    requires f.Keys == g.Keys
    requires Agrees(g, u)
    ensures FirstMatch(Upsert(s, g, u).store, f) == Some(idx)
  {
    var r := Upsert(s, g, u);
    match FirstMatch(s, g)
    case Some(i) =>
      var d := s[i] + u;
      assert r.store == s[i := d];
      assert Matches(d, g) by {
        forall k | k in g
          ensures Lookup(d, k) == g[k]
        {
          if k !in u {
            assert Lookup(s[i], k) == g[k];
          }
        }
      }
      if i == idx {
        SameKeysSameFilter(s[i], f, g);
      } else if i < idx {
        var k :| k in f && Lookup(s[i], k) != f[k];
        assert Lookup(s[i], k) == g[k];
        assert Lookup(d, k) == g[k];
      }
      assert Matches(r.store[idx], f);
      forall j | 0 <= j < idx
        ensures !Matches(r.store[j], f)
      {
        if j != i {
          assert r.store[j] == s[j];
        }
      }
      FirstMatchAt(r.store, f, idx);
    case None =>
      assert r.store == s + [g + u];
      forall j | 0 <= j < idx
        ensures !Matches(r.store[j], f)
      {
        assert r.store[j] == s[j];
      }
      FirstMatchAt(r.store, f, idx);
  }
}

=== FILE: processor.dfy ===
/** `LeadUploadProcessor.uploadLeads`, the queue job handler. */
module Processor {
  import opened LeadDoc
  import opened LeadStore
  import opened Ingest

  /** The job resolves with no value once the guard and the first audit entry
      pass; it issues no processing mail, and since every file's pipeline
      awaits its push notification, a file whose notification rejects never
      settles as done. */
  function UploadLeads(s: Store, lk: Lookups, job: Job): (r: JobRun)
    ensures forall i :: 0 <= i < |r.trace| ==> !r.trace[i].MailCall?
    ensures r.status.Resolved? ==> |r.files| == |job.files|
    ensures r.status.Resolved? ==>
              forall i :: 0 <= i < |job.files| && job.files[i].env.notifyRejects ==> !r.files[i].Done?
  {
    RunJob(QueueProcessor, s, lk, job)
  }

  /** In the queue processor a rejected push notification fails the file
      after all three calls were issued. */
  lemma NotificationFailureFailsFile(s: Store, cols: seq<string>, leads: seq<Doc>, key: string,
                                     env: FileEnv, c: Context)
    requires RowsWritten(leads, env) == |leads|
    requires !env.uploadRejects && !env.auditRejects && env.notifyRejects
    ensures var r := SaveLeadsFromExcel(QueueProcessor, s, cols, leads, key, env, c);
            && r.status == Failed(NotifyRejected)
            && Tags(r.trace) == [UploadTag, AuditTag, NotifyTag]
  {
  }
}

=== FILE: reconcile.dfy ===
/** The per-file reconciliation loop of `saveLeadsFromExcel`: for every decoded
    lead, build the dynamic uniqueness filter from the campaign's `uniqueCols`
    and `campaignId`, build the update from the lead's fields stamped with the
    job metadata, upsert, and file the reply into the `updated`, `created` or
    `error` bucket. */
module Reconcile {
  import opened LeadDoc
  import opened LeadStore

  /** The job metadata every written lead is stamped with. */
  datatype Meta = Meta(campaignName: string, organization: string, uploader: string, campaignId: string)

  const CampaignIdKey: string := "campaignId"

  /** The update keys the job metadata overrides, whatever the lead says. */
  const MetaKeys: set<string> := {"campaign", "organization", "uploader", "campaignId"}

  /** The value the update gives a metadata key. */
  function MetaValue(m: Meta, k: string): Value
  {
    if k == "campaign" then Str(m.campaignName)
    else if k == "organization" then Str(m.organization)
    else if k == "uploader" then Str(m.uploader)
    else if k == CampaignIdKey then Str(m.campaignId)
    else Undefined
  }

  /** The `uniqueCols.forEach` part of the filter: one key per unique column,
      holding the lead's value there (`Undefined` when the lead lacks it). */
  function FilterCols(cols: seq<string>, lead: Doc): (f: Doc)
    ensures f.Keys == set c | c in cols
    ensures forall c :: c in cols ==> f[c] == Lookup(lead, c)
    decreases |cols|
  {
    if cols == [] then map[]
    else
      var init := cols[..|cols| - 1];
      var last := cols[|cols| - 1];
      assert cols == init + [last];
      FilterCols(init, lead)[last := Lookup(lead, last)]
  }

  /** The keys every filter of a campaign has, whichever lead it is built for. */
  function FilterKeys(cols: seq<string>): set<string>
  {
    (set c | c in cols) + {CampaignIdKey}
  }

  /** The uniqueness filter: the unique columns, then `campaignId` assigned last. */
  function BuildFilter(cols: seq<string>, lead: Doc, campaignId: string): Doc
  {
    FilterCols(cols, lead)[CampaignIdKey := Str(campaignId)]
  }

  /** The filter's shape: exactly the unique columns and `campaignId`, each
      unique column holding the lead's value, and `campaignId` the job's id
      even when it is also a unique column. */
  lemma FilterShape(cols: seq<string>, lead: Doc, campaignId: string)
    ensures var f := BuildFilter(cols, lead, campaignId);
            && f.Keys == FilterKeys(cols)
            && (forall c :: c in cols && c != CampaignIdKey ==> f[c] == Lookup(lead, c))
            && f[CampaignIdKey] == Str(campaignId)
  {
  }

  /** The update document: the lead's fields spread first, the metadata after. */
  function BuildUpdate(lead: Doc, m: Meta): Doc
  {
    lead + map["campaign" := Str(m.campaignName), "organization" := Str(m.organization),
               "uploader" := Str(m.uploader), CampaignIdKey := Str(m.campaignId)]
  }

  /** The update's shape: the lead's keys plus the metadata keys; a lead key
      keeps the lead's value unless it is one of `campaign`, `organization`,
      `uploader`, `campaignId`, which take the job's values whatever the lead
      says. */
  lemma UpdateShape(lead: Doc, m: Meta)
    ensures var u := BuildUpdate(lead, m);
            && u.Keys == lead.Keys + MetaKeys
            && (forall k :: k in lead && k !in MetaKeys ==> u[k] == lead[k])
            && (forall k :: k in MetaKeys ==> u[k] == MetaValue(m, k))
  {
  }

  /** No unique column is a metadata key the job overrides with a value other
      than the lead's own (`campaignId` never conflicts: filter and update both
      take the job's). */
  predicate KeyConsistent(cols: seq<string>, lead: Doc, m: Meta)
  {
    forall c :: c in cols && c in MetaKeys && c != CampaignIdKey ==> Lookup(lead, c) == MetaValue(m, c)
  }

  /** The filter and the update agree on every shared key exactly when the
      lead is key-consistent with the job. */
  lemma FilterAgreesWithUpdate(cols: seq<string>, lead: Doc, m: Meta)
    ensures Agrees(BuildFilter(cols, lead, m.campaignId), BuildUpdate(lead, m)) <==> KeyConsistent(cols, lead, m)
  {
    var f := BuildFilter(cols, lead, m.campaignId);
    var u := BuildUpdate(lead, m);
    if KeyConsistent(cols, lead, m) {
      forall k | k in f && k in u
        ensures f[k] == u[k]
      {
        if k != CampaignIdKey && k !in MetaKeys {
          assert k in cols;
          assert f[k] == Lookup(lead, k);
        }
      }
    } else {
      var c :| c in cols && c in MetaKeys && c != CampaignIdKey && Lookup(lead, c) != MetaValue(m, c);
      assert f[c] != u[c];
    }
  }

  /** One iteration of the loop: the upsert issued for one lead. */
  function Step(s: Store, cols: seq<string>, lead: Doc, m: Meta): Upserted
  {
    Upsert(s, BuildFilter(cols, lead, m.campaignId), BuildUpdate(lead, m))
  }

  /** The store after the loop and the replies in processing order. */
  datatype Pass = Pass(store: Store, replies: seq<Reply>)

  /** The loop over the leads, in order, each upsert seeing the store the
      previous one left. */
  function Run(s: Store, cols: seq<string>, leads: seq<Doc>, m: Meta): (p: Pass)
    ensures |p.replies| == |leads|
    ensures |p.store| >= |s|
    decreases |leads|
  {
    if leads == [] then Pass(s, [])
    else
      var first := Step(s, cols, leads[0], m);
      var rest := Run(first.store, cols, leads[1..], m);
      Pass(rest.store, [first.reply] + rest.replies)
  }

  lemma TakeSnoc<X>(xs: seq<X>, i: nat)
    requires i < |xs|
    ensures xs[..i + 1] == xs[..i] + [xs[i]]
  {
  }

  lemma TailIn<X>(xs: seq<X>)
    requires xs != []
    ensures forall x :: x in xs[1..] ==> x in xs
  {
  }

  /** The snapshot stored for a lead satisfies the lead's own filter exactly
      when the lead is key-consistent with the job. */
  lemma SnapshotMatchesFilter(s: Store, cols: seq<string>, lead: Doc, m: Meta)
    ensures Matches(Step(s, cols, lead, m).reply.value, BuildFilter(cols, lead, m.campaignId))
            <==> KeyConsistent(cols, lead, m)
  {
    FilterAgreesWithUpdate(cols, lead, m);
    UpsertSnapshotMatches(s, BuildFilter(cols, lead, m.campaignId), BuildUpdate(lead, m));
  }

  // ---------------------------------------------------------------- buckets

  datatype Kind = Updated | Created | Errored

  /** The classification: `updatedExisting === true` is checked first, then
      `upserted`; a reply with neither goes to the error bucket. */
  function KindOf(r: Reply): Kind
  {
    if r.updatedExisting then Updated else if r.upserted then Created else Errored
  }

  datatype Buckets = Buckets(updated: seq<Doc>, created: seq<Doc>, error: seq<Doc>)

  /** Pushes one reply's value onto the bucket its classification names. */
  function File(b: Buckets, r: Reply): Buckets
  {
    match KindOf(r)
    case Updated => b.(updated := b.updated + [r.value])
    case Created => b.(created := b.created + [r.value])
    case Errored => b.(error := b.error + [r.value])
  }

  /** The buckets after filing every reply in processing order. */
  function Partition(rs: seq<Reply>): (b: Buckets)
    ensures |b.updated| + |b.created| + |b.error| == |rs|
    decreases |rs|
  {
    if rs == [] then Buckets([], [], [])
    else File(Partition(rs[..|rs| - 1]), rs[|rs| - 1])
  }

  /** Filing one more reply pushes its value onto the end of the bucket its
      flags name, `updatedExisting` before `upserted`, and leaves the other
      two buckets as they were. */
  lemma PartitionSnoc(rs: seq<Reply>, r: Reply)
    ensures Partition(rs + [r]) == File(Partition(rs), r)
    ensures var b := Partition(rs);
            var b' := Partition(rs + [r]);
            && b'.updated == b.updated + (if r.updatedExisting then [r.value] else [])
            && b'.created == b.created + (if !r.updatedExisting && r.upserted then [r.value] else [])
            && b'.error == b.error + (if !r.updatedExisting && !r.upserted then [r.value] else [])
  {
    assert (rs + [r])[..|rs|] == rs;
  }

  /** Reference definition: the values of the replies of one kind, in order. */
  function Select(rs: seq<Reply>, k: Kind): seq<Doc>
    decreases |rs|
  {
    if rs == [] then []
    else (if KindOf(rs[0]) == k then [rs[0].value] else []) + Select(rs[1..], k)
  }

  lemma {:induction false} SelectSnoc(rs: seq<Reply>, r: Reply, k: Kind)
    ensures Select(rs + [r], k) == Select(rs, k) + (if KindOf(r) == k then [r.value] else [])
    decreases |rs|
  {
    if rs == [] {
      assert [r][1..] == [];
    } else {
      var head := if KindOf(rs[0]) == k then [rs[0].value] else [];
      var tail := if KindOf(r) == k then [r.value] else [];
      assert (rs + [r])[0] == rs[0];
      assert (rs + [r])[1..] == rs[1..] + [r];
      SelectSnoc(rs[1..], r, k);
      calc {
        Select(rs + [r], k);
        head + Select(rs[1..] + [r], k);
        head + (Select(rs[1..], k) + tail);
        (head + Select(rs[1..], k)) + tail;
        Select(rs, k) + tail;
      }
    }
  }

  /** Each bucket holds exactly the values of the replies of its kind, in
      processing order. */
  lemma {:induction false} PartitionIsSelection(rs: seq<Reply>)
    ensures Partition(rs) == Buckets(Select(rs, Updated), Select(rs, Created), Select(rs, Errored))
    decreases |rs|
  {
    if rs != [] {
      var init := rs[..|rs| - 1];
      var last := rs[|rs| - 1];
      assert rs == init + [last];
      PartitionIsSelection(init);
      SelectSnoc(init, last, Updated);
      SelectSnoc(init, last, Created);
      SelectSnoc(init, last, Errored);
    }
  }

  /** Replies that are all of one kind land in that bucket only. */
  lemma {:induction false} SelectUniform(rs: seq<Reply>, k: Kind)
    requires forall i :: 0 <= i < |rs| ==> KindOf(rs[i]) == k
    ensures |Select(rs, k)| == |rs|
    ensures forall k' :: k' != k ==> Select(rs, k') == []
    decreases |rs|
  {
    if rs != [] {
      SelectUniform(rs[1..], k);
    }
  }

  /** The store grows by exactly the number of leads classified created. */
  lemma {:induction false} RunGrowsByCreated(s: Store, cols: seq<string>, leads: seq<Doc>, m: Meta)
    ensures |Run(s, cols, leads, m).store| == |s| + |Select(Run(s, cols, leads, m).replies, Created)|
    decreases |leads|
  {
    if leads != [] {
      var first := Step(s, cols, leads[0], m);
      var rest := Run(first.store, cols, leads[1..], m);
      RunGrowsByCreated(first.store, cols, leads[1..], m);
      assert ([first.reply] + rest.replies)[1..] == rest.replies;
    }
  }

  // ----------------------------------------------------- re-upload behaviour

  /** A document findable under a filter of the campaign's shape stays
      findable through the whole loop. */
  lemma {:induction false} RunKeepsFound(s: Store, cols: seq<string>, leads: seq<Doc>, m: Meta, g: Doc)
    requires Found(s, g)
    requires g.Keys == FilterKeys(cols)
    requires forall l :: l in leads ==> KeyConsistent(cols, l, m)
    ensures Found(Run(s, cols, leads, m).store, g)
    decreases |leads|
  {
    if leads != [] {
      FilterAgreesWithUpdate(cols, leads[0], m);
      UpsertKeepsFound(s, BuildFilter(cols, leads[0], m.campaignId), BuildUpdate(leads[0], m), g);
      TailIn(leads);
      RunKeepsFound(Step(s, cols, leads[0], m).store, cols, leads[1..], m, g);
    }
  }

  /** After the loop, every lead's filter finds a document. */
  lemma {:induction false} RunFindsEveryLead(s: Store, cols: seq<string>, leads: seq<Doc>, m: Meta)
    requires forall l :: l in leads ==> KeyConsistent(cols, l, m)
    ensures forall l :: l in leads ==> Found(Run(s, cols, leads, m).store, BuildFilter(cols, l, m.campaignId))
    decreases |leads|
  {
    if leads != [] {
      var first := Step(s, cols, leads[0], m);
      var f0 := BuildFilter(cols, leads[0], m.campaignId);
      SnapshotMatchesFilter(s, cols, leads[0], m);
      assert Found(first.store, f0);
      TailIn(leads);
      RunKeepsFound(first.store, cols, leads[1..], m, f0);
      RunFindsEveryLead(first.store, cols, leads[1..], m);
      forall l | l in leads
        ensures Found(Run(s, cols, leads, m).store, BuildFilter(cols, l, m.campaignId))
      {
        if l != leads[0] {
          assert l in leads[1..];
        }
      }
    }
  }

  /** One upsert for a key-consistent lead keeps every filter of the campaign
      that found a document still finding one. */
  lemma StepKeepsAllFound(s: Store, cols: seq<string>, lead: Doc, m: Meta, others: seq<Doc>)
    requires KeyConsistent(cols, lead, m)
    requires forall l :: l in others ==> Found(s, BuildFilter(cols, l, m.campaignId))
    ensures forall l :: l in others ==> Found(Step(s, cols, lead, m).store, BuildFilter(cols, l, m.campaignId))
  {
    FilterAgreesWithUpdate(cols, lead, m);
    forall l | l in others
      ensures Found(Step(s, cols, lead, m).store, BuildFilter(cols, l, m.campaignId))
    {
      UpsertKeepsFound(s, BuildFilter(cols, lead, m.campaignId), BuildUpdate(lead, m), BuildFilter(cols, l, m.campaignId));
    }
  }

  /** When every lead's filter already finds a document, every upsert is an
      update and the store keeps its size. */
  lemma {:induction false} RunOverFoundUpdatesAll(s: Store, cols: seq<string>, leads: seq<Doc>, m: Meta)
    requires forall l :: l in leads ==> KeyConsistent(cols, l, m)
    requires forall l :: l in leads ==> Found(s, BuildFilter(cols, l, m.campaignId))
    ensures |Run(s, cols, leads, m).store| == |s|
    ensures forall i :: 0 <= i < |leads| ==> KindOf(Run(s, cols, leads, m).replies[i]) == Updated
    decreases |leads|
  {
    if leads != [] {
      var first := Step(s, cols, leads[0], m);
      var rest := Run(first.store, cols, leads[1..], m);
      assert KindOf(first.reply) == Updated && |first.store| == |s| by {
        assert Found(s, BuildFilter(cols, leads[0], m.campaignId));
      }
      TailIn(leads);
      StepKeepsAllFound(s, cols, leads[0], m, leads[1..]);
      RunOverFoundUpdatesAll(first.store, cols, leads[1..], m);
      assert Run(s, cols, leads, m).replies == [first.reply] + rest.replies;
    }
  }

  /** Re-uploading the same leads adds no document and classifies every lead
      as updated, provided no unique column is a metadata key the job
      overrides with a different value. */
  lemma ReuploadUpdatesEveryLead(s: Store, cols: seq<string>, leads: seq<Doc>, m: Meta)
    requires forall l :: l in leads ==> KeyConsistent(cols, l, m)
    ensures var first := Run(s, cols, leads, m);
            var again := Run(first.store, cols, leads, m);
            && |again.store| == |first.store|
            && Partition(again.replies).created == []
            && Partition(again.replies).error == []
            && |Partition(again.replies).updated| == |leads|
  {
    var first := Run(s, cols, leads, m);
    RunFindsEveryLead(s, cols, leads, m);
    RunOverFoundUpdatesAll(first.store, cols, leads, m);
    var again := Run(first.store, cols, leads, m);
    SelectUniform(again.replies, Updated);
    PartitionIsSelection(again.replies);
  }

  /** Without key consistency the re-upload is not idempotent: a lead whose
      unique column is overridden by the job metadata is created again on
      every upload when the store held no document for it. */
  lemma ConflictingKeyCreatesAgain(s: Store, cols: seq<string>, lead: Doc, m: Meta)
    requires !KeyConsistent(cols, lead, m)
    requires !Found(s, BuildFilter(cols, lead, m.campaignId))
    ensures var first := Run(s, cols, [lead], m);
            var again := Run(first.store, cols, [lead], m);
            && KindOf(first.replies[0]) == Created
            && KindOf(again.replies[0]) == Created
            && |again.store| == |s| + 2
  {
    var f := BuildFilter(cols, lead, m.campaignId);
    var step := Step(s, cols, lead, m);
    SnapshotMatchesFilter(s, cols, lead, m);
    assert step.store == s + [step.reply.value];
    assert !Found(step.store, f) by {
      forall j | 0 <= j < |step.store|
        ensures !Matches(step.store[j], f)
      {
        if j < |s| {
          assert step.store[j] == s[j];
        }
      }
    }
    assert [lead][1..] == [];
  }

  lemma RunOne(s: Store, cols: seq<string>, l: Doc, m: Meta)
    ensures Run(s, cols, [l], m) == Pass(Step(s, cols, l, m).store, [Step(s, cols, l, m).reply])
  {
    assert [l][1..] == [];
  }

  lemma RunPair(s: Store, cols: seq<string>, l1: Doc, l2: Doc, m: Meta)
    ensures var first := Step(s, cols, l1, m);
            var second := Step(first.store, cols, l2, m);
            Run(s, cols, [l1, l2], m) == Pass(second.store, [first.reply, second.reply])
  {
    var first := Step(s, cols, l1, m);
    assert Run(s, cols, [l1, l2], m) == Pass(Run(first.store, cols, [l2], m).store, [first.reply] + Run(first.store, cols, [l2], m).replies) by {
      assert [l1, l2][1..] == [l2];
    }
    RunOne(first.store, cols, l2, m);
  }

  /** Two consecutive rows with the same values at the unique columns
      reconcile to one record: the first row's upsert writes it at the index
      of the record its filter found, or appends it; the second row's upsert
      finds exactly that record first and writes the second row's update over
      it. The second is therefore an update, the pair adds at most one
      document, and the record ends with the later row's own fields. */
  lemma AdjacentSameKeyRows(s: Store, cols: seq<string>, l1: Doc, l2: Doc, m: Meta)
    requires forall c :: c in cols ==> Lookup(l1, c) == Lookup(l2, c)
    requires KeyConsistent(cols, l1, m)
    ensures var f := BuildFilter(cols, l1, m.campaignId);
            var idx := WriteIndex(s, f);
            var first := Step(s, cols, l1, m);
            var p := Run(s, cols, [l1, l2], m);
            && idx < |first.store| && first.store[idx] == p.replies[0].value
            && FirstMatch(first.store, BuildFilter(cols, l2, m.campaignId)) == Some(idx)
            && idx < |p.store| && p.store[idx] == p.replies[1].value
            && p.replies[1].value == p.replies[0].value + BuildUpdate(l2, m)
            && KindOf(p.replies[1]) == Updated
            && |p.store| == |s| + (if KindOf(p.replies[0]) == Created then 1 else 0)
            && forall k :: k in l2 && k !in MetaKeys ==> k in p.replies[1].value && p.replies[1].value[k] == l2[k]
  {
    var f := BuildFilter(cols, l1, m.campaignId);
    assert BuildFilter(cols, l2, m.campaignId) == f;
    FilterAgreesWithUpdate(cols, l1, m);
    UpsertTwiceHitsOneRecord(s, f, BuildUpdate(l1, m), BuildUpdate(l2, m));
    RunPair(s, cols, l1, l2, m);
  }

  /** The loop over two runs of leads is the loop over the second run
      against the store the first one left, with the replies in order. */
  lemma {:induction false} RunAppend(s: Store, cols: seq<string>, a: seq<Doc>, b: seq<Doc>, m: Meta)
    ensures var p := Run(s, cols, a, m);
            var q := Run(p.store, cols, b, m);
            Run(s, cols, a + b, m) == Pass(q.store, p.replies + q.replies)
    decreases |a|
  {
    if a == [] {
      assert a + b == b;
    } else {
      assert (a + b)[0] == a[0];
      assert (a + b)[1..] == a[1..] + b;
      var first := Step(s, cols, a[0], m);
      RunAppend(first.store, cols, a[1..], b, m);
      var p := Run(first.store, cols, a[1..], m);
      var q := Run(p.store, cols, b, m);
      assert [first.reply] + (p.replies + q.replies) == ([first.reply] + p.replies) + q.replies;
    }
  }

  /** The loop over the first `n + 1` leads is the loop over the first `n`
      followed by lead `n`'s upsert. */
  lemma PrefixStep(s: Store, cols: seq<string>, leads: seq<Doc>, n: nat, m: Meta)
    requires n < |leads|
    ensures var p := Run(s, cols, leads[..n], m);
            var step := Step(p.store, cols, leads[n], m);
            Run(s, cols, leads[..n + 1], m) == Pass(step.store, p.replies + [step.reply])
  {
    TakeSnoc(leads, n);
    RunSnoc(s, cols, leads[..n], leads[n], m);
  }

  /** Reply `n` of the loop is lead `n`'s upsert against the store the leads
      before it left, and the loop over the rest continues from the store
      that upsert left. */
  lemma ReplyAt(s: Store, cols: seq<string>, leads: seq<Doc>, n: nat, m: Meta)
    requires n < |leads|
    ensures var p := Run(s, cols, leads[..n], m);
            var step := Step(p.store, cols, leads[n], m);
            && Run(s, cols, leads, m).replies[n] == step.reply
            && Run(s, cols, leads, m).store == Run(step.store, cols, leads[n + 1..], m).store
  {
    PrefixStep(s, cols, leads, n, m);
    assert leads[..n + 1] + leads[n + 1..] == leads;
    RunAppend(s, cols, leads[..n + 1], leads[n + 1..], m);
  }

  /** The first document a filter of the campaign's shape finds stays the
      first one it finds through a loop over key-consistent leads. */
  lemma {:induction false} RunKeepsFirstMatch(s: Store, cols: seq<string>, leads: seq<Doc>, m: Meta, f: Doc, idx: nat)
    requires FirstMatch(s, f) == Some(idx)
    requires f.Keys == FilterKeys(cols)
    requires forall l :: l in leads ==> KeyConsistent(cols, l, m)
    ensures FirstMatch(Run(s, cols, leads, m).store, f) == Some(idx)
    decreases |leads|
  {
    if leads != [] {
      FilterShape(cols, leads[0], m.campaignId);
      FilterAgreesWithUpdate(cols, leads[0], m);
      UpsertKeepsFirstMatch(s, BuildFilter(cols, leads[0], m.campaignId), BuildUpdate(leads[0], m), f, idx);
      TailIn(leads);
      RunKeepsFirstMatch(Step(s, cols, leads[0], m).store, cols, leads[1..], m, f, idx);
    }
  }

  /** Between two points of the loop over key-consistent leads, the first
      document a filter of the campaign's shape finds stays where it was. */
  lemma PrefixKeepsFirstMatch(s: Store, cols: seq<string>, leads: seq<Doc>, a: nat, b: nat, m: Meta, f: Doc, idx: nat)
    requires a <= b <= |leads|
    requires f.Keys == FilterKeys(cols)
    requires forall l :: l in leads ==> KeyConsistent(cols, l, m)
    requires FirstMatch(Run(s, cols, leads[..a], m).store, f) == Some(idx)
    ensures FirstMatch(Run(s, cols, leads[..b], m).store, f) == Some(idx)
  {
    assert leads[..a] + leads[a..b] == leads[..b];
    forall l | l in leads[a..b]
      ensures KeyConsistent(cols, l, m)
    {
      assert l in leads;
    }
    RunAppend(s, cols, leads[..a], leads[a..b], m);
    RunKeepsFirstMatch(Run(s, cols, leads[..a], m).store, cols, leads[a..b], m, f, idx);
  }

  /** From a point of the loop over key-consistent leads to its end, the
      first document a filter of the campaign's shape finds stays where it
      was. */
  lemma RestKeepsFirstMatch(s: Store, cols: seq<string>, leads: seq<Doc>, a: nat, m: Meta, f: Doc, idx: nat)
    requires a <= |leads|
    requires f.Keys == FilterKeys(cols)
    requires forall l :: l in leads ==> KeyConsistent(cols, l, m)
    requires FirstMatch(Run(s, cols, leads[..a], m).store, f) == Some(idx)
    ensures FirstMatch(Run(s, cols, leads, m).store, f) == Some(idx)
  {
    PrefixKeepsFirstMatch(s, cols, leads, a, |leads|, m, f, idx);
    assert leads[..|leads|] == leads;
  }

  /** A key-consistent row writes its snapshot at the write index of its
      filter, which its filter then finds first. */
  lemma RowWritesAt(s: Store, cols: seq<string>, leads: seq<Doc>, i: nat, m: Meta)
    requires i < |leads|
    requires KeyConsistent(cols, leads[i], m)
    ensures var f := BuildFilter(cols, leads[i], m.campaignId);
            var idx := WriteIndex(Run(s, cols, leads[..i], m).store, f);
            var after := Run(s, cols, leads[..i + 1], m).store;
            && idx < |after| && after[idx] == Run(s, cols, leads, m).replies[i].value
            && FirstMatch(after, f) == Some(idx)
  {
    var f := BuildFilter(cols, leads[i], m.campaignId);
    var u := BuildUpdate(leads[i], m);
    FilterAgreesWithUpdate(cols, leads[i], m);
    PrefixStep(s, cols, leads, i, m);
    ReplyAt(s, cols, leads, i, m);
    UpsertTwiceHitsOneRecord(Run(s, cols, leads[..i], m).store, f, u, u);
  }

  /** In a loop over key-consistent leads, a row whose filter first finds the
      document at `idx` updates exactly that document with its own fields,
      and the filter still finds it first afterwards, to the end of the loop. */
  lemma RowUpdatesAt(s: Store, cols: seq<string>, leads: seq<Doc>, j: nat, m: Meta, idx: nat)
    requires j < |leads|
    requires forall l :: l in leads ==> KeyConsistent(cols, l, m)
    requires FirstMatch(Run(s, cols, leads[..j], m).store, BuildFilter(cols, leads[j], m.campaignId)) == Some(idx)
    ensures var f := BuildFilter(cols, leads[j], m.campaignId);
            var r := Run(s, cols, leads, m).replies[j];
            var before := Run(s, cols, leads[..j], m).store;
            var after := Run(s, cols, leads[..j + 1], m).store;
            && KindOf(r) == Updated
            && idx < |before| && r.value == before[idx] + BuildUpdate(leads[j], m)
            && idx < |after| && after[idx] == r.value
            && (forall k :: k in leads[j] && k !in MetaKeys ==> k in r.value && r.value[k] == leads[j][k])
            && FirstMatch(after, f) == Some(idx)
            && FirstMatch(Run(s, cols, leads, m).store, f) == Some(idx)
  {
    var f := BuildFilter(cols, leads[j], m.campaignId);
    var u := BuildUpdate(leads[j], m);
    FilterAgreesWithUpdate(cols, leads[j], m);
    PrefixStep(s, cols, leads, j, m);
    ReplyAt(s, cols, leads, j, m);
    UpdateShape(leads[j], m);
    UpsertKeepsFirstMatch(Run(s, cols, leads[..j], m).store, f, u, f, idx);
    FilterShape(cols, leads[j], m.campaignId);
    RestKeepsFirstMatch(s, cols, leads, j + 1, m, f, idx);
  }

  /** Two rows of one file with the same values at the unique columns,
      anywhere in it, reconcile to one record when every row is
      key-consistent: row `i` writes the record at the index its filter found
      or appends it there; the rows in between leave it the first document
      that filter finds; row `j` therefore updates exactly that record,
      merging its own update over it, and it stays the first match to the end
      of the file. */
  lemma SameKeyRowsShareOneRecord(s: Store, cols: seq<string>, leads: seq<Doc>, i: nat, j: nat, m: Meta)
    requires i < j < |leads|
    requires forall c :: c in cols ==> Lookup(leads[i], c) == Lookup(leads[j], c)
    requires forall l :: l in leads ==> KeyConsistent(cols, l, m)
    ensures var f := BuildFilter(cols, leads[i], m.campaignId);
            var idx := WriteIndex(Run(s, cols, leads[..i], m).store, f);
            var p := Run(s, cols, leads, m);
            var afterI := Run(s, cols, leads[..i + 1], m).store;
            var beforeJ := Run(s, cols, leads[..j], m).store;
            var afterJ := Run(s, cols, leads[..j + 1], m).store;
            && idx < |afterI| && afterI[idx] == p.replies[i].value
            && FirstMatch(beforeJ, BuildFilter(cols, leads[j], m.campaignId)) == Some(idx)
            && KindOf(p.replies[j]) == Updated
            && idx < |afterJ| && afterJ[idx] == p.replies[j].value
            && p.replies[j].value == beforeJ[idx] + BuildUpdate(leads[j], m)
            && (forall k :: k in leads[j] && k !in MetaKeys ==> k in p.replies[j].value && p.replies[j].value[k] == leads[j][k])
            && FirstMatch(p.store, f) == Some(idx)
  {
    var f := BuildFilter(cols, leads[i], m.campaignId);
    assert BuildFilter(cols, leads[j], m.campaignId) == f;
    FilterShape(cols, leads[i], m.campaignId);
    var idx := WriteIndex(Run(s, cols, leads[..i], m).store, f);
    RowWritesAt(s, cols, leads, i, m);
    PrefixKeepsFirstMatch(s, cols, leads, i + 1, j, m, f, idx);
    RowUpdatesAt(s, cols, leads, j, m, idx);
  }

  // ------------------------------------------------------- the loop itself

  /** The loop processes the leads front to back: one more lead is one more
      upsert against the store the earlier ones left, with its reply last. */
  lemma {:induction false} RunSnoc(s: Store, cols: seq<string>, leads: seq<Doc>, l: Doc, m: Meta)
    ensures var p := Run(s, cols, leads, m);
            var last := Step(p.store, cols, l, m);
            Run(s, cols, leads + [l], m) == Pass(last.store, p.replies + [last.reply])
    decreases |leads|
  {
    if leads == [] {
      assert [l][1..] == [];
      assert leads + [l] == [l];
    } else {
      assert (leads + [l])[0] == leads[0];
      assert (leads + [l])[1..] == leads[1..] + [l];
      var first := Step(s, cols, leads[0], m);
      RunSnoc(first.store, cols, leads[1..], l, m);
      var rest := Run(first.store, cols, leads[1..], m);
      var last := Step(rest.store, cols, l, m);
      assert [first.reply] + (rest.replies + [last.reply]) == ([first.reply] + rest.replies) + [last.reply];
    }
  }

  /** One iteration of the loop keeps its invariant: the pass over one more
      lead, the buckets with its reply filed, and the store grown by the
      created ones. */
  lemma LoopStep(s: Store, cols: seq<string>, leads: seq<Doc>, i: nat, m: Meta,
                 store: Store, replies: seq<Reply>, b: Buckets)
    requires i < |leads|
    requires Pass(store, replies) == Run(s, cols, leads[..i], m)
    requires b == Partition(replies)
    requires |store| == |s| + |b.created|
    ensures var res := Step(store, cols, leads[i], m);
            && Pass(res.store, replies + [res.reply]) == Run(s, cols, leads[..i + 1], m)
            && File(b, res.reply) == Partition(replies + [res.reply])
            && |res.store| == |s| + |File(b, res.reply).created|
  {
    TakeSnoc(leads, i);
    RunSnoc(s, cols, leads[..i], leads[i], m);
    PartitionSnoc(replies, Step(store, cols, leads[i], m).reply);
  }

  /** The loop as the source writes it: each reply pushed onto the bucket
      `File` names, in order, the store threaded through every upsert. */
  method SaveLoop(s: Store, cols: seq<string>, leads: seq<Doc>, m: Meta) returns (store: Store, b: Buckets)
    ensures store == Run(s, cols, leads, m).store
    ensures b == Partition(Run(s, cols, leads, m).replies)
    ensures |b.updated| + |b.created| + |b.error| == |leads|
    ensures |store| == |s| + |b.created|
  {
    store := s;
    b := Buckets([], [], []);
    ghost var replies: seq<Reply> := [];
    var i := 0;
    while i < |leads|
      invariant 0 <= i <= |leads|
      invariant Pass(store, replies) == Run(s, cols, leads[..i], m)
      invariant b == Partition(replies)
      invariant |store| == |s| + |b.created|
    {
      var lead := leads[i];
      var filter := BuildFilter(cols, lead, m.campaignId);
      var update := BuildUpdate(lead, m);
      var res := Upsert(store, filter, update);
      LoopStep(s, cols, leads, i, m, store, replies, b);
      b := File(b, res.reply);
      replies := replies + [res.reply];
      store := res.store;
      i := i + 1;
    }
    assert leads[..i] == leads;
  }
}

=== FILE: result_book.dfy ===
/** The result workbook of one uploaded file, as an ordered list of named
    sheets of rows; cell encoding and the xlsx container are not modelled. */
module ResultBook {
  import opened LeadDoc
  import opened LeadStore
  import opened Reconcile

  datatype Sheet = Sheet(name: string, rows: seq<Doc>)

  type Workbook = seq<Sheet>

  const UpdatedSheet: string := "tickets updated"
  const CreatedSheet: string := "tickets created"

  /** Sheets appended in the order the source appends them: the updated
      bucket first, then the created one; the error bucket is dropped. */
  function BuildWorkbook(b: Buckets): Workbook
  {
    [Sheet(UpdatedSheet, b.updated), Sheet(CreatedSheet, b.created)]
  }

  function SheetNames(wb: Workbook): seq<string>
  {
    seq(|wb|, i requires 0 <= i < |wb| => wb[i].name)
  }

  /** Every value a selection holds comes from a reply of that kind. */
  lemma {:induction false} SelectFrom(rs: seq<Reply>, k: Kind, d: Doc)
    requires d in Select(rs, k)
    ensures exists i :: 0 <= i < |rs| && rs[i].value == d && KindOf(rs[i]) == k
    decreases |rs|
  {
    if !(KindOf(rs[0]) == k && rs[0].value == d) {
      assert d in Select(rs[1..], k);
      SelectFrom(rs[1..], k, d);
      var i :| 0 <= i < |rs[1..]| && rs[1..][i].value == d && KindOf(rs[1..][i]) == k;
      assert rs[i + 1] == rs[1..][i];
    }
  }

  /** The workbook built from a file's replies: exactly the sheets
      "tickets updated" and "tickets created", in that order, holding the
      updated and the created snapshots in processing order; every row comes
      from a reply that was not an error, and the rows add up to the leads
      minus the errors. */
  lemma WorkbookFromReplies(rs: seq<Reply>)
    ensures var wb := BuildWorkbook(Partition(rs));
            && SheetNames(wb) == [UpdatedSheet, CreatedSheet]
            && wb[0].rows == Select(rs, Updated)
            && wb[1].rows == Select(rs, Created)
            && |wb[0].rows| + |wb[1].rows| == |rs| - |Select(rs, Errored)|
            && forall j, d :: 0 <= j < |wb| && d in wb[j].rows ==>
                 exists i :: 0 <= i < |rs| && rs[i].value == d && KindOf(rs[i]) != Errored
  {
    var wb := BuildWorkbook(Partition(rs));
    PartitionIsSelection(rs);
    forall j, d | 0 <= j < |wb| && d in wb[j].rows
      ensures exists i :: 0 <= i < |rs| && rs[i].value == d && KindOf(rs[i]) != Errored
    {
      SelectFrom(rs, if j == 0 then Updated else Created, d);
    }
  }
}

=== FILE: service.dfy ===
/** `LeadService.uploadMultipleLeadFiles`, the compiled copy of the upload
    flow, and how it relates to the queue processor. */
module Service {
  import opened LeadDoc
  import opened LeadStore
  import opened Ingest

  /** The value the service returns: the job's file list and the result of
      `parseLeadFiles`, which returns nothing. */
  datatype UploadReply = UploadReply(files: seq<UploadedFile>, result: Value)

  datatype ServiceRun = ServiceRun(run: JobRun, reply: Option<UploadReply>)

  /** The service replies once the guard and the first audit entry pass,
      echoing the files with an undefined result; right after the first
      audit entry it sends the processing mail, and since no file waits for
      its push notification, no file fails on one. */
  function UploadMultipleLeadFiles(s: Store, lk: Lookups, data: Job): (r: ServiceRun)
    ensures r.reply.Some? <==> r.run.status.Resolved?
    ensures r.reply.Some? ==> r.reply.value.files == data.files && r.reply.value.result == Undefined
    ensures r.run.status.Resolved? ==>
              |r.run.trace| >= 2 && r.run.trace[1] == MailCall(UploadMailTo, UploadMailSubject)
    ensures r.run.status.Resolved? ==> |r.run.files| == |data.files|
    ensures r.run.status.Resolved? ==>
              forall i :: 0 <= i < |data.files| ==> r.run.files[i] != Failed(NotifyRejected)
  {
    var run := RunJob(CompiledService, s, lk, data);
    assert run.status.Resolved? ==> run.trace[1..2] == Prelude(CompiledService);
    ServiceRun(run, if run.status.Resolved? then Some(UploadReply(data.files, Undefined)) else None)
  }

  /** The file as the service sees it whatever the push service answers. */
  function NotifyAccepted(f: UploadedFile): UploadedFile
  {
    f.(env := f.env.(notifyRejects := false))
  }

  function AllNotifyAccepted(files: seq<UploadedFile>): (r: seq<UploadedFile>)
    ensures |r| == |files|
    ensures forall i :: 0 <= i < |files| ==> r[i] == NotifyAccepted(files[i])
  {
    seq(|files|, i requires 0 <= i < |files| => NotifyAccepted(files[i]))
  }

  /** The per-file pipelines of the two copies issue the same writes and
      calls; their outcomes differ only where the processor reports a
      rejected notification and the service reports the result location. */
  lemma FileAgrees(s: Store, cols: seq<string>, f: UploadedFile, c: Context)
    ensures var p := ProcessFile(QueueProcessor, s, cols, f, c);
            var q := ProcessFile(CompiledService, s, cols, f, c);
            && p.store == q.store && p.trace == q.trace
            && (p.status == q.status || (p.status == Failed(NotifyRejected) && q.status == Done(f.env.resultLocation)))
  {
  }

  lemma {:induction false} FilesAgree(s: Store, cols: seq<string>, files: seq<UploadedFile>, c: Context)
    ensures var p := RunFiles(QueueProcessor, s, cols, files, c);
            var q := RunFiles(CompiledService, s, cols, files, c);
            && p.store == q.store && p.trace == q.trace
            && forall i :: 0 <= i < |files| ==>
                 (p.statuses[i] == q.statuses[i]
                  || (p.statuses[i] == Failed(NotifyRejected) && q.statuses[i] == Done(files[i].env.resultLocation)))
    decreases |files|
  {
    if files != [] {
      FileAgrees(s, cols, files[0], c);
      var head := ProcessFile(QueueProcessor, s, cols, files[0], c);
      FilesAgree(head.store, cols, files[1..], c);
      var p := RunFiles(QueueProcessor, s, cols, files, c);
      var q := RunFiles(CompiledService, s, cols, files, c);
      var pr := RunFiles(QueueProcessor, head.store, cols, files[1..], c);
      var qr := RunFiles(CompiledService, head.store, cols, files[1..], c);
      forall i | 0 < i < |files|
        ensures p.statuses[i] == pr.statuses[i - 1] && q.statuses[i] == qr.statuses[i - 1]
                && files[i] == files[1..][i - 1]
      {
      }
    }
  }

  /** Both copies reconcile a job identically: the same outcome, the same
      store, the same per-file outcomes up to rejected notifications, and the
      same calls, except that the service sends its processing mail right
      after the first audit entry. */
  lemma SameBatchAsProcessor(s: Store, lk: Lookups, j: Job)
    ensures var p := RunJob(QueueProcessor, s, lk, j);
            var q := UploadMultipleLeadFiles(s, lk, j).run;
            && p.status == q.status && p.store == q.store && |p.files| == |q.files|
            && (forall i :: 0 <= i < |p.files| ==>
                  (p.files[i] == q.files[i]
                   || (p.files[i] == Failed(NotifyRejected) && q.files[i] == Done(j.files[i].env.resultLocation))))
            && (p.status.Threw? ==> q.trace == p.trace)
            && (p.status.Resolved? ==>
                  q.trace == p.trace[..1] + [MailCall(UploadMailTo, UploadMailSubject)] + p.trace[1..])
  {
    if !lk.config.NullConfig? && |j.files| > 0 && !lk.configAuditRejects {
      FilesAgree(s, lk.uniqueCols, j.files, j.ctx);
      var p := RunJob(QueueProcessor, s, lk, j);
      assert p.trace[1..] == RunFiles(QueueProcessor, s, lk.uniqueCols, j.files, j.ctx).trace;
    }
  }

  /** Whether the push service accepts or rejects the notifications changes
      nothing the service does: it fires them without waiting. */
  lemma {:induction false} NotificationFailureIgnoredFiles(s: Store, cols: seq<string>, files: seq<UploadedFile>, c: Context)
    ensures RunFiles(CompiledService, s, cols, files, c) == RunFiles(CompiledService, s, cols, AllNotifyAccepted(files), c)
    decreases |files|
  {
    if files != [] {
      var g := AllNotifyAccepted(files);
      assert g[1..] == AllNotifyAccepted(files[1..]);
      var head := ProcessFile(CompiledService, s, cols, files[0], c);
      assert ProcessFile(CompiledService, s, cols, g[0], c) == head;
      NotificationFailureIgnoredFiles(head.store, cols, files[1..], c);
    }
  }

  lemma NotificationFailureIgnored(s: Store, lk: Lookups, data: Job)
    ensures UploadMultipleLeadFiles(s, lk, data).run ==
            UploadMultipleLeadFiles(s, lk, data.(files := AllNotifyAccepted(data.files))).run
  {
    NotificationFailureIgnoredFiles(s, lk.uniqueCols, data.files, data.ctx);
  }
}
